=== FILE: README.md ===
# monerium-bot, modelled in Dafny

The bot polls the Monerium API for processed fiat/crypto orders and posts one
Discord message per new order. This project models the bot's pure logic.

- **Order source** (`src/lib/monerium.ts`). `getLastOrder` reads the marker, the first order of the
  stored snapshot `monerium-orders.json`. `getOrders` overwrites that snapshot with each response.
  `getNewOrders` cuts the fetched list just before the marker. The snapshot is an explicit state
  value (`Orders.Snapshot`). The orders endpoint is a function from the `profile_id` query value
  to the response (`Orders.Api`). A fetch is a pure step from (snapshot, profile id, endpoint) to
  (new orders, snapshot').
- **Formatter** (`src/main.ts`). The `currencySymbols` table, `formatAmount`, and the issue and
  redeem templates with their explorer link.
- **Poll cycle** (`src/main.ts`, `fetchOrders`). One pass over a batch of new orders. Time is whole
  milliseconds; `now` is an input.
- **Startup recovery** (`src/main.ts`, `main`). Scans recent chat messages for the first
  `<http(s)://…/tx/0x…>` link. The regular expression is written out as the backtracking search
  JavaScript performs: leftmost start, greedy `.*` that does not cross line terminators, and the
  last reachable `/tx/0x…>` tail.
- **Tick.** `getNewOrders(lastTxHash)` followed by `fetchOrders`, threading the snapshot and
  `lastTxHash`. A variant that queries every profile (`Bot.RunTickAllProfiles`) is the corrected
  form listed under "## Findings".

Modules: `Common` (Option, Result), `Orders`, `Monerium`, `Format`, `LinkPattern`, `Bot`.

The model follows the code as written:

- A currency outside the table renders as the text `undefined` in front of the amount. This is
  JavaScript's interpolation of an `undefined` lookup.
- An order whose kind is neither `issue` nor `redeem` is posted as an empty message.
- The code keeps no set of posted hashes and does not reorder the batch.
- After a complete batch, `lastTxHash` is the primary hash of the batch's FIRST order.
- `fetchOrders` passes `lastTxHash` as the only argument of `getNewOrders` (`src/main.ts:29`).
  That argument is the profile id, so the marker becomes the `profile_id` query parameter of the
  next fetch (`src/lib/monerium.ts:78`, `102`). The orders endpoint is modelled as a function from
  that query value to the response (`Orders.Api`), and `Bot.RunTick` queries it with the marker.
- `src/main.ts:1` default-imports a module that has no default export. The model treats the order
  source as the functions of `src/lib/monerium.ts` themselves.

## Model

| member | source | states |
|---|---|---|
| Orders.PrimaryHash | src/main.ts:48 | The hash a message links to is the order's first transaction hash, and is `undefined` exactly when the order lists none. |
| Monerium.LastOrder | src/lib/monerium.ts:58-74 | The marker is the first stored order. It is absent exactly when the file is missing or unreadable, or its `orders` is missing or empty. |
| Monerium.ProfileIdParam | src/lib/monerium.ts:78 | An absent profile id queries with `""`, and a given one is sent as it is. |
| Monerium.GetOrders | src/lib/monerium.ts:76-95 | A fetch returns the `orders` the API answers for the profile id, and overwrites the snapshot, so the next marker is that answer's first order, whatever was stored before. |
| Monerium.TakeBefore | src/lib/monerium.ts:107-114 | The cut is a prefix of the fetched list with no order whose `id` equals the marker's, and it stops only at the end or at a marker order. |
| Monerium.CollectNewOrders | src/lib/monerium.ts:107-114 | The `for`/`break` loop builds exactly the longest marker-free prefix, keeping the fetched order. |
| Monerium.LongestFreePrefixIsUnique | src/lib/monerium.ts:107-114 | Any prefix that is marker-free and stops only at a marker or at the end is the cut. So the cut is the longest marker-free prefix. |
| Monerium.GetNewOrders | src/lib/monerium.ts:97-115 | The marker comes from the snapshot held BEFORE the fetch, and the snapshot afterwards is the API's answer for the profile id. A response without `orders` gives `[]`. Otherwise the result is the marker-free prefix that stops at the marker. |
| Monerium.NoMarkerKeepsAll | src/lib/monerium.ts:108-112 | Without a marker, every fetched order is new. |
| Monerium.NoSnapshotMarkerKeepsAll | src/lib/monerium.ts:100-114 | A missing, unreadable or empty snapshot passes the fetched list through unchanged. |
| Monerium.NewOrdersAreMarkerFree | src/lib/monerium.ts:107-114 | The new orders are a prefix of the fetched list, no longer than it, and none has the marker's `id`. |
| Monerium.ConsecutiveCallsCutAtPreviousResponse | src/lib/monerium.ts:90-102 | The second of two calls cuts at the first order of the first call's response. |
| Monerium.SecondCallIsEmpty | src/lib/monerium.ts:90-114 | Two calls with the same profile id against an API giving the same non-empty answer: the second returns nothing. |
| Format.ToUpper | src/main.ts:24 | The currency code is upper-cased before the table lookup. The model upper-cases ASCII letters only: each lower-case ASCII letter becomes its capital, so none remains, and every other character is kept, as is the length. |
| Format.SymbolFor | src/main.ts:14-24 | A symbol is found exactly when the upper-cased code is a key of the table, and it is that key's entry. |
| Format.FormatAmount | src/main.ts:22-26 | The amount appears unchanged at the end. In front of it is the table's symbol, or the text `undefined` for a code outside the table. |
| Format.SymbolTable | src/main.ts:14-20 | `$` for USD, CAD and AUD; `€` for EUR; `£` for GBP, in any letter case. `XYZ` gives `undefined`. |
| Format.FormatAmountIgnoresCase | src/main.ts:24 | Codes that differ only in letter case format identically. |
| Format.Message | src/main.ts:43-56 | An issue message starts with `Received `, a redeem message with `Sent `, and both end with the link to the primary hash. Any other kind gives the empty string. |
| Format.IssueTemplate | src/main.ts:44-49 | The full issue text: `Received <amount> from <name> (<memo>) [[View Transaction](<<explorer>/tx/<hash>>)]`. |
| Format.RedeemTemplate | src/main.ts:50-55 | The full redeem text, with `Sent ` and ` to `. |
| LinkPattern.ExtractTxHash | src/main.ts:82-84 | Anything the pattern captures is `0x` followed by at least one letter or digit. |
| LinkPattern.ExtractFromLink | src/main.ts:82-84 | In `<url/tx/hash>)]` preceded by `<`-free text, with an http(s) URL on one line, the pattern captures exactly `hash`. |
| Bot.FirstBlocked | src/main.ts:34-42 | The loop gets past exactly the orders before the returned position: each of those is fresh and on a known chain, and the order at that position, if any, is stale or on an unknown chain. |
| Bot.Walk | src/main.ts:34-59 | Exactly the orders before the first stale or unknown-chain order are posted, one message each, in list order. The walk finishes iff none blocks. A stale order stops it quietly; a missing chain stops it with that chain. |
| Bot.FetchOrders | src/main.ts:28-61 | An empty batch changes nothing. The marker moves only after a full walk of a non-empty batch, and then to the first order's primary hash. A throw never moves it. |
| Bot.RunCycle | src/main.ts:34-60 | The loop with its early returns computes the same posts, marker and error as the cycle, and every order it posted was fresh and on a known chain. |
| Bot.StaleOrderEndsCycle | src/main.ts:34-41 | At the first stale order the earlier orders have been posted and nothing after. The marker stays and no error is raised. |
| Bot.StalenessCutoff | src/main.ts:35-39 | Staleness is strict: exactly 86 400 000 ms old is fresh, one millisecond more is stale, and an unparseable time is never stale. |
| Bot.FreshBatchPostsEveryOrder | src/main.ts:34-60 | With nothing stale and every chain known, there is one post per order in list order, and the marker becomes the first order's hash. |
| Bot.UnknownChainAbortsCycle | src/main.ts:42 | A chain missing from the table throws after the earlier posts, and the marker stays. |
| Bot.OtherKindPostsEmptyMessage | src/main.ts:43-58 | An order of another kind that the loop reaches is posted as the empty string. |
| Bot.FreshIssueOrderMessage | test/main.test.ts:19-58 | The EUR/100/Alice/"Test memo"/etherscan/0x123 order posts exactly `Received €100 from Alice (Test memo) [[View Transaction](<https://etherscan.io/tx/0x123>)]`. |
| Bot.OldOrderIsNotPosted | test/main.test.ts:64-94 | An order processed 25 hours ago causes no post. |
| Bot.FirstTxHash | src/main.ts:81-89 | The result is the capture of the first message, in fetched order, that matches. It is absent iff no message matches. |
| Bot.ScanForTxHash | src/main.ts:81-89 | The loop that breaks at the first match yields that first match. |
| Bot.Recover | src/main.ts:71-89 | A missing or empty channel id, or a missing message list, is an error. An empty list leaves the marker `undefined`. A recovered marker has the captured hash shape. |
| Bot.LaterMessagesIgnored | src/main.ts:85-88 | Messages after the first match do not change the recovered marker. |
| Bot.MessageLinkRoundTrip | src/main.ts:44-84 | The recovery pattern reads back the primary hash from every issue or redeem message whose amount, name and memo contain no `<`, whose explorer URL is http(s) on one line, and whose hash has the captured shape. |
| Bot.RestartRecoversLastPostedOrder | src/main.ts:58-89 | After a full cycle the in-memory marker is the batch's FIRST order's hash. Recovery from the newest channel message instead yields the batch's LAST order's hash. |
| Bot.TickQuery | src/main.ts:29 | A tick's `profile_id` is the in-memory marker, or `""` while there is none. |
| Bot.RunTick | src/main.ts:28-60 | A tick queries the API with the marker as `profile_id` and leaves the answer as the snapshot. It posts the messages of the cut's orders, in order, up to the first stale or unknown-chain order, which is where it stops. It throws `MissingChain` exactly when it stops at an order that is fresh but on an unknown chain. The marker becomes the first cut order's primary hash exactly when a non-empty cut is posted in full, and otherwise stays. All of this agrees with `FetchOrders` on the cut. An answer without `orders` posts nothing and keeps the marker. |
| Bot.TickDependsOnAnswerOnly | src/main.ts:29 | Two ticks with the same snapshot whose queries get the same answer post the same messages and throw the same error. |
| Bot.MarkerBecomesProfileFilter | src/main.ts:29-60 | After a tick that walks a non-empty cut to its end, the next tick's `profile_id` is the primary hash of the cut's first order. |
| Bot.RepeatedResponsePostsNothing | src/main.ts:28-33 | When the next tick's query gets the same non-empty answer, that tick posts nothing, throws nothing and changes no state. |
| Bot.SilentAfterFirstMarker | src/main.ts:29 | With an API that has no profile named after a hash, a second tick posts nothing although the unfiltered query holds a new order. |
| Bot.RunTickAllProfiles | src/main.ts:28-60 | The tick with `profile_id` left empty has the same outcome over the cut of the unfiltered answer: posts in order up to the first blocking order, `MissingChain` exactly at a fresh order on an unknown chain, and the marker moves to the first order's hash only after a full non-empty batch. |
| Bot.AllProfilesTickIgnoresMarker | src/main.ts:29 | With `profile_id` left empty, what a tick posts, throws and stores does not depend on `lastTxHash`. |
| Bot.AllProfilesRepeatPostsNothing | src/lib/monerium.ts:90-114 | With `profile_id` left empty, a second tick against an unchanged API posts nothing. |
| Bot.AllProfilesKeepsPosting | src/main.ts:28-60 | With `profile_id` left empty, the scenario in which the code falls silent posts exactly `a`'s message and then exactly `b`'s message. |

## Findings

| source | as written | input that shows it | evidently intended | confidence | as-written member | corrected member |
|---|---|---|---|---|---|---|
| src/main.ts:29 | `getNewOrders(lastTxHash)` sends the last transaction hash as the `profile_id` query parameter (`src/lib/monerium.ts:78`, `97-102`) | a first tick posting order `a` with hash `0x1`; the next tick queries `profile_id=0x1`, and an API with no such profile returns no orders, so a new order `b` is never posted | fetch the orders of every profile (`profile_id` empty); the resume point is already the stored snapshot's first order | medium: depends on what the API answers for an unknown profile id; not executed | Bot.SilentAfterFirstMarker | Bot.AllProfilesKeepsPosting |

## Left out

- HTTP and authentication: `getAccessToken`, the `fetch` calls, `getProfiles` and the top-level token check are network I/O. The API is an input function from the `profile_id` value to the response (`Orders.Api`). A fetch or JSON error, which would reject `getNewOrders`, is not modelled.
- File and environment access, and JSON parsing/serialisation: the snapshot file is the `Snapshot` value. A read or parse failure is `Unreadable`, and writing then reading back a response is taken to be the identity.
- The Discord client: posting is collecting the message text, and a failing post (which would reject the cycle) is not modelled. The fetched chat history is an input.
- `src/remove-messages.ts`: a command-line wrapper around a function the Discord wrapper does not define.
- `setInterval` scheduling, `logtime` and logging: side effects with no bearing on the state.
- Bot.RunTick: a tick that ends with an `error` still yields a `BotState`, and lemmas such as `Bot.RepeatedResponsePostsNothing` chain ticks past it. In the running program that tick has no successor. `fetchOrders()` is called without `await` or a `catch` (`src/main.ts:91`, `93`), so the throw is an unhandled promise rejection, and by default Deno ends the process on one.
- Bot.Walk: uses one `now` for the whole cycle, whereas the source reads the clock again for each order. The difference is the time spent posting.
- Bot.IsStale: compares integer milliseconds instead of dividing by 3 600 000 in floating point. On whole milliseconds of realistic magnitude the two comparisons agree.
- Format.ToUpper: upper-cases ASCII letters only. JavaScript's `toUpperCase` also upper-cases other letters (`é` to `É`), and can lengthen the string (`ß` to `SS`, `ﬁ` to `FI`). For the table lookup in `formatAmount` only letters that become a single ASCII capital matter (`ſ` to `S`, `ı` to `I`). The other differences yield codes that are not among `USD`, `EUR`, `GBP`, `CAD` and `AUD`, so such a code renders `undefined` both here and in JavaScript.
- Format.SymbolFor: upper-cases ASCII letters only. JavaScript's full Unicode `toUpperCase` also maps a few non-ASCII letters onto ASCII ones (for example `ſ` to `S`).
- Bot.UnknownChainAbortsCycle: treats every chain that is not a key of `chains.json` as missing and throwing. In JavaScript, a chain named after an inherited `Object` property (`constructor`, `toString`, `valueOf`, `__proto__`, …) does not throw: its `explorer_url` is `undefined`, so the message links to `undefined/tx/…`. The model does not carry the `Object` prototype.
- Orders.Order: keeps only the fields the bot reads. A `chains.json` entry is reduced to its `explorer_url` string, so an entry without that field, which would print `undefined`, is not modelled.
- LinkPattern.ExtractFromLink: holds only for explorer URLs beginning with `http://` or `https://`, and for message text before the link that contains no `<`. Other messages are matched by `ExtractTxHash` but carry no round-trip guarantee.

=== FILE: bot.dfy ===
/**
 The poll loop: one cycle over a batch of new orders, the recovery of the
 resume marker from the channel's recent messages at startup, and one timer
 tick that chains the order source with the cycle.
 */
module Bot {
  import opened Common
  import opened Orders
  import opened Format
  import opened LinkPattern
  import Monerium

  /** 24 hours in whole milliseconds; `diff / (1000 * 60 * 60) > 24` on milliseconds. */
  const DayMs: int := 24 * 60 * 60 * 1000

  /**
   An order processed more than 24 hours before `now`. The bound is strict,
   and a timestamp that does not parse compares as `NaN`, which is never
   greater than 24.
   */
  predicate IsStale(now: int, o: Order)
  {
    match o.processedAt
    case Some(t) => now - t > DayMs
    case None => false
  }

  /** The explorer table of `chains.json`: chain name to `explorer_url`. */
  type Chains = map<string, string>

  /** An order the loop cannot get past: stale, or on a chain the table lacks. */
  predicate Blocks(now: int, chains: Chains, o: Order)
  {
    IsStale(now, o) || o.chain !in chains
  }

  /** The message posted for an order whose chain is in the table. */
  function PostFor(o: Order, chains: Chains): string
    requires o.chain in chains
  {
    Message(o, chains[o.chain])
  }

  /** Why the walk over a batch ended. */
  datatype Stop = Finished | StaleOrder | UnknownChain(chain: string)

  /** The messages posted, in order, and why the walk ended. */
  datatype Walked = Walked(posted: seq<string>, stop: Stop)

  /** The position of the first order the loop cannot get past, or the batch length. */
  function FirstBlocked(orders: seq<Order>, now: int, chains: Chains): (n: nat)
    ensures n <= |orders|
    ensures forall i | 0 <= i < n :: !Blocks(now, chains, orders[i])
    ensures n < |orders| ==> Blocks(now, chains, orders[n])
    decreases |orders|
  {
    if |orders| == 0 || Blocks(now, chains, orders[0]) then 0
    else 1 + FirstBlocked(orders[1..], now, chains)
  }

  /**
   The `for … of` loop of `fetchOrders`: post one message per order until
   the end of the batch, a stale order (which ends the cycle quietly) or an
   order whose chain has no explorer (where the lookup throws).
   */
  function Walk(orders: seq<Order>, now: int, chains: Chains): (w: Walked)
    ensures |w.posted| <= |orders|
    ensures forall i | 0 <= i < |w.posted| ::
              !Blocks(now, chains, orders[i]) && w.posted[i] == PostFor(orders[i], chains)
    ensures w.stop.Finished? <==> |w.posted| == |orders|
    ensures |w.posted| < |orders| ==> Blocks(now, chains, orders[|w.posted|])
    ensures |w.posted| < |orders| && IsStale(now, orders[|w.posted|]) ==> w.stop == StaleOrder
    ensures |w.posted| < |orders| && !IsStale(now, orders[|w.posted|]) ==>
              w.stop == UnknownChain(orders[|w.posted|].chain)
  {
    var n := FirstBlocked(orders, now, chains);
    var stop :=
      if n == |orders| then Finished
      else if IsStale(now, orders[n]) then StaleOrder
      else UnknownChain(orders[n].chain);
    Walked(PostsOf(orders[..n], chains), stop)
  }

  /** The error a cycle throws: reading `explorer_url` of a chain missing from the table. */
  datatype CycleError = MissingChain(chain: string)

  /** One cycle: the messages posted, the marker afterwards, and the error thrown, if any. */
  datatype Cycle = Cycle(posted: seq<string>, lastTxHash: Option<string>, error: Option<CycleError>)

  /**
   `fetchOrders` after the fetch. An empty batch returns at once. The marker
   moves to the primary hash of the batch's FIRST order, and only when the
   loop ran to its end; a stale order or a throw leaves it where it was.
   */
  function FetchOrders(lastTxHash: Option<string>, orders: seq<Order>, now: int, chains: Chains): (c: Cycle)
    ensures |orders| == 0 ==> c == Cycle([], lastTxHash, None)
    ensures |c.posted| <= |orders|
    ensures c.error.None? || c.lastTxHash == lastTxHash
    ensures c.lastTxHash != lastTxHash ==>
              |orders| > 0 && c.lastTxHash == PrimaryHash(orders[0]) && |c.posted| == |orders|
  {
    if |orders| == 0 then Cycle([], lastTxHash, None)
    else
      var w := Walk(orders, now, chains);
      match w.stop
      case Finished => Cycle(w.posted, PrimaryHash(orders[0]), None)
      case StaleOrder => Cycle(w.posted, lastTxHash, None)
      case UnknownChain(chain) => Cycle(w.posted, lastTxHash, Some(MissingChain(chain)))
  }

  /**
   The cycle as the source runs it: a loop that appends each post and
   returns early at a stale order or a missing chain.
   */
  method RunCycle(lastTxHash: Option<string>, orders: seq<Order>, now: int, chains: Chains)
    returns (posted: seq<string>, marker: Option<string>, error: Option<CycleError>)
    ensures Cycle(posted, marker, error) == FetchOrders(lastTxHash, orders, now, chains)
    ensures forall i | 0 <= i < |posted| :: !Blocks(now, chains, orders[i])
  {
    posted, marker, error := [], lastTxHash, None;
    if |orders| == 0 {
      return;
    }
    var i := 0;
    while i < |orders|
      invariant 0 <= i <= |orders|
      invariant |posted| == i
      invariant forall k | 0 <= k < i :: !Blocks(now, chains, orders[k]) && posted[k] == PostFor(orders[k], chains)
    {
      var order := orders[i];
      if IsStale(now, order) {
        StaleOrderEndsCycle(lastTxHash, orders, now, chains, i);
        assert posted == PostsOf(orders[..i], chains);
        return;
      }
      if order.chain !in chains {
        error := Some(MissingChain(order.chain));
        UnknownChainAbortsCycle(lastTxHash, orders, now, chains, i);
        assert posted == PostsOf(orders[..i], chains);
        return;
      }
      posted := posted + [PostFor(order, chains)];
      i := i + 1;
    }
    marker := PrimaryHash(orders[0]);
    FreshBatchPostsEveryOrder(lastTxHash, orders, now, chains);
    assert posted == PostsOf(orders, chains);
  }

  /** The messages of a batch none of whose orders blocks the loop. */
  function PostsOf(orders: seq<Order>, chains: Chains): (ps: seq<string>)
    requires forall i | 0 <= i < |orders| :: orders[i].chain in chains
    ensures |ps| == |orders|
    ensures forall i | 0 <= i < |orders| :: ps[i] == PostFor(orders[i], chains)
  {
    seq(|orders|, i requires 0 <= i < |orders| => PostFor(orders[i], chains))
  }

  /**
   A stale order ends the cycle: the orders before it are posted in order,
   it and every later order are not, the marker stays, and nothing is thrown.
   */
  lemma StaleOrderEndsCycle(lastTxHash: Option<string>, orders: seq<Order>, now: int, chains: Chains, i: nat)
    requires i < |orders| && IsStale(now, orders[i])
    requires forall k | 0 <= k < i :: !Blocks(now, chains, orders[k])
    ensures FetchOrders(lastTxHash, orders, now, chains) ==
            Cycle(PostsOf(orders[..i], chains), lastTxHash, None)
  {
    var w := Walk(orders, now, chains);
    assert |w.posted| == i;
  }

  /**
   A batch with no stale order and no unknown chain: exactly one post per
   order, in list order, and the marker becomes the first order's hash.
   */
  lemma FreshBatchPostsEveryOrder(lastTxHash: Option<string>, orders: seq<Order>, now: int, chains: Chains)
    requires |orders| > 0
    requires forall k | 0 <= k < |orders| :: !Blocks(now, chains, orders[k])
    ensures FetchOrders(lastTxHash, orders, now, chains) ==
            Cycle(PostsOf(orders, chains), PrimaryHash(orders[0]), None)
  {
    var w := Walk(orders, now, chains);
    assert |w.posted| == |orders|;
  }

  /**
   An order on a chain missing from the table throws after the earlier
   posts; the marker stays.
   */
  lemma UnknownChainAbortsCycle(lastTxHash: Option<string>, orders: seq<Order>, now: int, chains: Chains, i: nat)
    requires i < |orders| && !IsStale(now, orders[i]) && orders[i].chain !in chains
    requires forall k | 0 <= k < i :: !Blocks(now, chains, orders[k])
    ensures FetchOrders(lastTxHash, orders, now, chains) ==
            Cycle(PostsOf(orders[..i], chains), lastTxHash, Some(MissingChain(orders[i].chain)))
  {
    var w := Walk(orders, now, chains);
    assert |w.posted| == i;
  }

  /**
   The cutoff is strict: an order exactly 24 hours old is still posted, one
   a millisecond older is stale, and one without a parseable time never is.
   */
  lemma StalenessCutoff(o: Order, now: int)
    ensures o.processedAt == Some(now - 86_400_000) ==> !IsStale(now, o)
    ensures o.processedAt == Some(now - 86_400_001) ==> IsStale(now, o)
    ensures o.processedAt.None? ==> !IsStale(now, o)
  {
  }

  /** An order of any other kind, when the loop reaches it, is posted as an empty message. */
  lemma OtherKindPostsEmptyMessage(lastTxHash: Option<string>, orders: seq<Order>, now: int, chains: Chains, i: nat)
    requires i < |orders| && orders[i].kind != "issue" && orders[i].kind != "redeem"
    requires forall k | 0 <= k <= i :: !Blocks(now, chains, orders[k])
    ensures |FetchOrders(lastTxHash, orders, now, chains).posted| > i
    ensures FetchOrders(lastTxHash, orders, now, chains).posted[i] == ""
  {
    var w := Walk(orders, now, chains);
    assert |w.posted| > i;
  }

  /** The explorer table of the test cases and scenarios: Ethereum on Etherscan. */
  const Etherscan: Chains := map["ethereum" := "https://etherscan.io"]

  /** The order of the first test case, processed at `processedAt`. */
  function TestOrder(processedAt: int, memo: string, name: string, hash: string): Order
  {
    Order("order-id", "issue", "ethereum", "EUR", "100", name, memo, Some(processedAt), [hash])
  }

  /** The first test case: a fresh issue order gives one post with the exact text. */
  lemma FreshIssueOrderMessage(now: int)
    ensures FetchOrders(None, [TestOrder(now, "Test memo", "Alice", "0x123")], now, Etherscan).posted ==
            ["Received €100 from Alice (Test memo) [[View Transaction](<https://etherscan.io/tx/0x123>)]"]
  {
    var o := TestOrder(now, "Test memo", "Alice", "0x123");
    TestOrderText(now);
    FreshBatchPostsEveryOrder(None, [o], now, Etherscan);
  }

  /** The text posted for the order of the first test case. */
  lemma TestOrderText(now: int)
    ensures PostFor(TestOrder(now, "Test memo", "Alice", "0x123"), Etherscan) ==
            "Received €100 from Alice (Test memo) [[View Transaction](<https://etherscan.io/tx/0x123>)]"
  {
    var o := TestOrder(now, "Test memo", "Alice", "0x123");
    assert PostFor(o, Etherscan) == Message(o, "https://etherscan.io");
    EuroAmount();
    IssueTemplate(o, "https://etherscan.io", "0x123");
    TestCaseText();
  }

  lemma EuroAmount()
    ensures FormatAmount("100", "EUR") == "€100"
  {
    assert ToUpper("EUR") == "EUR";
  }

  /** The expected text of the first test case, assembled from the template's pieces. */
  lemma TestCaseText()
    ensures "Received " + "€100" + " from " + "Alice" + " (" + "Test memo" + ") [[View Transaction](<"
              + "https://etherscan.io" + "/tx/" + "0x123" + ">)]" ==
            "Received €100 from Alice (Test memo) [[View Transaction](<https://etherscan.io/tx/0x123>)]"
  {
    TestCaseTextFront();
    TestCaseTextMiddle();
    TestCaseTextBack();
  }

  lemma TestCaseTextFront()
    ensures "Received " + "€100" + " from " + "Alice" + " (" + "Test memo" + ") [[View Transaction](<" ==
            "Received €100 from Alice (Test memo) [[View Transaction](<"
  {
    assert "Received " + "€100" + " from " + "Alice" + " (" == "Received €100 from Alice (";
  }

  lemma TestCaseTextMiddle()
    ensures "Received €100 from Alice (Test memo) [[View Transaction](<" + "https://etherscan.io" ==
            "Received €100 from Alice (Test memo) [[View Transaction](<https://etherscan.io"
  {
  }

  lemma TestCaseTextBack()
    ensures "Received €100 from Alice (Test memo) [[View Transaction](<https://etherscan.io" + "/tx/" + "0x123" + ">)]" ==
            "Received €100 from Alice (Test memo) [[View Transaction](<https://etherscan.io/tx/0x123>)]"
  {
  }

  /** The second test case: an order 25 hours old gives no post at all. */
  lemma OldOrderIsNotPosted(now: int)
    ensures FetchOrders(None, [TestOrder(now - 25 * 60 * 60 * 1000, "Old order", "Bob", "0x456")], now, Etherscan).posted == []
  {
  }

  /** A message fetched from the chat channel. */
  datatype ChatMessage = ChatMessage(content: string)

  /** The hash of the first message, in fetched order, that carries a transaction link. */
  function FirstTxHash(messages: seq<ChatMessage>): (h: Option<string>)
    ensures h.None? ==> forall i | 0 <= i < |messages| :: ExtractTxHash(messages[i].content).None?
    ensures h.Some? ==> exists i | 0 <= i < |messages| ::
              ExtractTxHash(messages[i].content) == h &&
              forall j | 0 <= j < i :: ExtractTxHash(messages[j].content).None?
    decreases |messages|
  {
    if |messages| == 0 then None
    else
      var h := ExtractTxHash(messages[0].content);
      if h.Some? then h else FirstTxHash(messages[1..])
  }

  /** The recovery scan as the source writes it: a loop that stops at the first link found. */
  method ScanForTxHash(messages: seq<ChatMessage>) returns (lastTxHash: Option<string>)
    ensures lastTxHash == FirstTxHash(messages)
  {
    lastTxHash := None;
    var i := 0;
    while i < |messages|
      invariant 0 <= i <= |messages|
      invariant FirstTxHash(messages) == FirstTxHash(messages[i..])
      invariant lastTxHash == None
    {
      var txHash := ExtractTxHash(messages[i].content);
      if txHash.Some? {
        lastTxHash := txHash;
        return;
      }
      assert messages[i..][1..] == messages[i + 1..];
      i := i + 1;
    }
  }

  /** Why startup gives up before the first cycle. */
  datatype StartupError = ChannelNotSet | NoMessages

  /**
   The startup part of `main`: a missing or empty channel id and a missing
   message list both throw; otherwise the marker is the hash of the first
   message with a transaction link, or stays `undefined`.
   */
  function Recover(channelId: Option<string>, messages: Option<seq<ChatMessage>>): (r: Result<Option<string>, StartupError>)
    ensures channelId.None? || channelId == Some("") ==> r == Err(ChannelNotSet)
    ensures channelId.Some? && channelId != Some("") && messages.None? ==> r == Err(NoMessages)
    ensures r.Ok? && r.value.Some? ==> IsTxHash(r.value.value)
    ensures r.Ok? && messages == Some([]) ==> r.value.None?
    ensures channelId.Some? && channelId.value != "" && messages.Some? ==>
              r.Ok? && r.value == FirstTxHash(messages.value)
  {
    if channelId.None? || channelId.value == "" then Err(ChannelNotSet)
    else if messages.None? then Err(NoMessages)
    else
      var h := FirstTxHash(messages.value);
      RecoveredIsHash(messages.value);
      Ok(h)
  }

  /** Whatever recovery finds has the shape the pattern captures. */
  lemma {:induction false} RecoveredIsHash(messages: seq<ChatMessage>)
    ensures FirstTxHash(messages).Some? ==> IsTxHash(FirstTxHash(messages).value)
    decreases |messages|
  {
    if |messages| > 0 && ExtractTxHash(messages[0].content).None? {
      RecoveredIsHash(messages[1..]);
    }
  }

  /** Recovery reads only up to the first message with a link; later messages do not matter. */
  lemma LaterMessagesIgnored(channelId: string, first: seq<ChatMessage>, hit: ChatMessage, later1: seq<ChatMessage>, later2: seq<ChatMessage>)
    requires channelId != ""
    requires ExtractTxHash(hit.content).Some?
    ensures Recover(Some(channelId), Some(first + [hit] + later1)) == Recover(Some(channelId), Some(first + [hit] + later2))
  {
    var rest1, rest2 := [hit] + later1, [hit] + later2;
    assert first + [hit] + later1 == first + rest1;
    assert first + [hit] + later2 == first + rest2;
    FirstTxHashPrefix(first, rest1);
    FirstTxHashPrefix(first, rest2);
  }

  lemma {:induction false} FirstTxHashPrefix(first: seq<ChatMessage>, rest: seq<ChatMessage>)
    requires |rest| > 0 && ExtractTxHash(rest[0].content).Some?
    ensures FirstTxHash(first + rest) == (if FirstTxHash(first).Some? then FirstTxHash(first) else ExtractTxHash(rest[0].content))
    decreases |first|
  {
    if |first| > 0 {
      assert (first + rest)[1..] == first[1..] + rest;
      FirstTxHashPrefix(first[1..], rest);
    } else {
      assert first + rest == rest;
    }
  }

  /**
   An order whose notification the recovery pattern reads back: a known
   kind, a primary hash of the captured shape, an http(s) explorer URL on
   one line, and no `<` in the amount, counterpart name or memo.
   */
  predicate Readable(o: Order, explorer: string)
  {
    && (o.kind == "issue" || o.kind == "redeem")
    && |o.txHashes| > 0 && IsTxHash(o.txHashes[0])
    && IsExplorerUrl(explorer)
    && '<' !in o.amount && '<' !in o.counterpartName && '<' !in o.memo
  }

  /** The text in front of the link never holds a `<`. */
  lemma LeadHasNoAngle(verb: string, preposition: string, o: Order)
    requires '<' !in verb && '<' !in preposition
    requires '<' !in o.amount && '<' !in o.counterpartName && '<' !in o.memo
    ensures '<' !in Lead(verb, preposition, o)
  {
    var sym := Render(SymbolFor(o.currency));
    assert '<' !in sym by {
      assert sym in {"$", "€", "£", "undefined"};
    }
    assert FormatAmount(o.amount, o.currency) == sym + o.amount;
    assert '<' !in ") [[View Transaction](";
    assert '<' !in " (";
  }

  /** The recovery pattern reads back the primary hash from a notification the bot posts. */
  lemma MessageLinkRoundTrip(o: Order, explorer: string)
    requires Readable(o, explorer)
    ensures ExtractTxHash(Message(o, explorer)) == PrimaryHash(o)
  {
    var verb := if o.kind == "issue" then "Received " else "Sent ";
    var preposition := if o.kind == "issue" then " from " else " to ";
    assert '<' !in verb && '<' !in preposition;
    LeadHasNoAngle(verb, preposition, o);
    var lead := Lead(verb, preposition, o);
    var head := Head(verb, preposition, o);
    assert forall k | 0 <= k < |head| - 1 :: head[k] == lead[k];
    ExtractFromLink(head, explorer, o.txHashes[0]);
  }

  /**
   After a complete cycle, a restart recovers the hash of the batch's LAST
   order (the newest message in the channel is the last one posted), while
   the running process had set the marker to the batch's FIRST order.
   */
  lemma RestartRecoversLastPostedOrder(lastTxHash: Option<string>, orders: seq<Order>, now: int, chains: Chains,
                                       channelId: string, history: seq<ChatMessage>)
    requires |orders| > 0
    requires forall k | 0 <= k < |orders| :: !Blocks(now, chains, orders[k])
    requires orders[|orders| - 1].chain in chains && Readable(orders[|orders| - 1], chains[orders[|orders| - 1].chain])
    requires channelId != ""
    requires |history| > 0 && history[0].content == PostFor(orders[|orders| - 1], chains)
    ensures FetchOrders(lastTxHash, orders, now, chains).lastTxHash == PrimaryHash(orders[0])
    ensures Recover(Some(channelId), Some(history)) == Ok(PrimaryHash(orders[|orders| - 1]))
  {
    FreshBatchPostsEveryOrder(lastTxHash, orders, now, chains);
    var last := orders[|orders| - 1];
    MessageLinkRoundTrip(last, chains[last.chain]);
  }

  /** What survives between two timer ticks: the snapshot file and the in-memory marker. */
  datatype BotState = BotState(snapshot: Snapshot, lastTxHash: Option<string>)

  /** One tick: the messages posted, the state afterwards, and the error thrown, if any. */
  datatype Tick = Tick(posted: seq<string>, state: BotState, error: Option<CycleError>)

  /**
   The `profile_id` a tick queries with. `fetchOrders` passes `lastTxHash`
   as the only argument of `getNewOrders`, which is the profile id.
   */
  function TickQuery(st: BotState): (q: string)
    ensures st.lastTxHash.Some? ==> q == st.lastTxHash.value
    ensures st.lastTxHash.None? ==> q == ""
  {
    Monerium.ProfileIdParam(st.lastTxHash)
  }

  /** The tick over the answer to a given query: `getNewOrders`, then the cycle. */
  function TickWith(st: BotState, query: Option<string>, api: Api, now: int, chains: Chains): (t: Tick)
    ensures var cut := Monerium.GetNewOrders(st.snapshot, query, api).orders;
            && t.state.snapshot == Saved(api(Monerium.ProfileIdParam(query)))
            && |t.posted| <= |cut|
            && (forall i | 0 <= i < |t.posted| :: cut[i].chain in chains && t.posted[i] == PostFor(cut[i], chains))
            && (|t.posted| == |cut| <==> forall k | 0 <= k < |cut| :: !Blocks(now, chains, cut[k]))
            && (t.state.lastTxHash != st.lastTxHash ==> |cut| > 0 && t.state.lastTxHash == PrimaryHash(cut[0]))
            && (|t.posted| < |cut| ==> Blocks(now, chains, cut[|t.posted|]))
            && t.error == (if |t.posted| < |cut| && !IsStale(now, cut[|t.posted|])
                           then Some(MissingChain(cut[|t.posted|].chain)) else None)
            && t.state.lastTxHash == (if 0 < |cut| == |t.posted| then PrimaryHash(cut[0]) else st.lastTxHash)
    ensures var cut := Monerium.GetNewOrders(st.snapshot, query, api).orders;
            var c := FetchOrders(st.lastTxHash, cut, now, chains);
            t.posted == c.posted && t.state.lastTxHash == c.lastTxHash && t.error == c.error
  {
    var batch := Monerium.GetNewOrders(st.snapshot, query, api);
    var c := FetchOrders(st.lastTxHash, batch.orders, now, chains);
    var w := Walk(batch.orders, now, chains);
    assert |batch.orders| > 0 ==> c.posted == w.posted;
    Tick(c.posted, BotState(batch.snapshot, c.lastTxHash), c.error)
  }

  /**
   One timer tick as the code runs it: the fetch is queried with
   `profile_id` set to the in-memory marker, then the new orders are cut
   and posted. The messages are those of the cut, in order, up to the
   first stale or unknown-chain order.
   */
  function RunTick(st: BotState, api: Api, now: int, chains: Chains): (t: Tick)
    ensures var cut := Monerium.GetNewOrders(st.snapshot, st.lastTxHash, api).orders;
            && t.state.snapshot == Saved(api(TickQuery(st)))
            && |t.posted| <= |cut|
            && (forall i | 0 <= i < |t.posted| :: cut[i].chain in chains && t.posted[i] == PostFor(cut[i], chains))
            && (|t.posted| == |cut| <==> forall k | 0 <= k < |cut| :: !Blocks(now, chains, cut[k]))
            && (|t.posted| < |cut| ==> Blocks(now, chains, cut[|t.posted|]))
            && t.error == (if |t.posted| < |cut| && !IsStale(now, cut[|t.posted|])
                           then Some(MissingChain(cut[|t.posted|].chain)) else None)
            && t.state.lastTxHash == (if 0 < |cut| == |t.posted| then PrimaryHash(cut[0]) else st.lastTxHash)
    ensures var cut := Monerium.GetNewOrders(st.snapshot, st.lastTxHash, api).orders;
            var c := FetchOrders(st.lastTxHash, cut, now, chains);
            t.posted == c.posted && t.state.lastTxHash == c.lastTxHash && t.error == c.error
    ensures api(TickQuery(st)).orders.None? ==> t == Tick([], BotState(Saved(api(TickQuery(st))), st.lastTxHash), None)
  {
    TickWith(st, st.lastTxHash, api, now, chains)
  }

  /** What a tick posts and throws depends only on the snapshot and on the answer to its query. */
  lemma TickDependsOnAnswerOnly(st1: BotState, api1: Api, st2: BotState, api2: Api, now: int, chains: Chains)
    requires st1.snapshot == st2.snapshot
    requires api1(TickQuery(st1)) == api2(TickQuery(st2))
    ensures RunTick(st1, api1, now, chains).posted == RunTick(st2, api2, now, chains).posted
    ensures RunTick(st1, api1, now, chains).error == RunTick(st2, api2, now, chains).error
  {
  }

  /**
   After a tick that walks a non-empty batch to its end, the next tick
   queries with `profile_id` equal to the primary hash of that batch's first
   order.
   */
  lemma MarkerBecomesProfileFilter(st: BotState, api: Api, now: int, chains: Chains)
    requires var cut := Monerium.GetNewOrders(st.snapshot, st.lastTxHash, api).orders;
             |cut| > 0 && |cut[0].txHashes| > 0 && forall k | 0 <= k < |cut| :: !Blocks(now, chains, cut[k])
    ensures TickQuery(RunTick(st, api, now, chains).state) ==
            Monerium.GetNewOrders(st.snapshot, st.lastTxHash, api).orders[0].txHashes[0]
  {
    var cut := Monerium.GetNewOrders(st.snapshot, st.lastTxHash, api).orders;
    FreshBatchPostsEveryOrder(st.lastTxHash, cut, now, chains);
  }

  /**
   Two ticks whose queries get the same non-empty answer: the second posts
   nothing, throws nothing and moves nothing.
   */
  lemma RepeatedResponsePostsNothing(st: BotState, api1: Api, api2: Api, now1: int, now2: int, chains: Chains)
    requires api1(TickQuery(st)).orders.Some? && |api1(TickQuery(st)).orders.value| > 0
    requires api2(TickQuery(RunTick(st, api1, now1, chains).state)) == api1(TickQuery(st))
    ensures var t1 := RunTick(st, api1, now1, chains);
            RunTick(t1.state, api2, now2, chains) == Tick([], t1.state, None)
  {
    var t1 := RunTick(st, api1, now1, chains);
    var answer := api1(TickQuery(st)).orders.value;
    assert Monerium.LastOrder(t1.state.snapshot) == Some(answer[0]);
    assert Monerium.GetNewOrders(t1.state.snapshot, t1.state.lastTxHash, api2).orders == [];
  }

  /**
   The tick with the fetch queried for every profile (`profile_id` empty),
   so that the marker no longer filters the orders asked for.
   */
  function RunTickAllProfiles(st: BotState, api: Api, now: int, chains: Chains): (t: Tick)
    ensures var cut := Monerium.GetNewOrders(st.snapshot, None, api).orders;
            && t.state.snapshot == Saved(api(""))
            && |t.posted| <= |cut|
            && (forall i | 0 <= i < |t.posted| :: cut[i].chain in chains && t.posted[i] == PostFor(cut[i], chains))
            && (|t.posted| == |cut| <==> forall k | 0 <= k < |cut| :: !Blocks(now, chains, cut[k]))
            && (|t.posted| < |cut| ==> Blocks(now, chains, cut[|t.posted|]))
            && t.error == (if |t.posted| < |cut| && !IsStale(now, cut[|t.posted|])
                           then Some(MissingChain(cut[|t.posted|].chain)) else None)
            && t.state.lastTxHash == (if 0 < |cut| == |t.posted| then PrimaryHash(cut[0]) else st.lastTxHash)
    ensures var cut := Monerium.GetNewOrders(st.snapshot, None, api).orders;
            var c := FetchOrders(st.lastTxHash, cut, now, chains);
            t.posted == c.posted && t.state.lastTxHash == c.lastTxHash && t.error == c.error
  {
    TickWith(st, None, api, now, chains)
  }

  /** With every profile queried, the marker never influences what a tick posts or throws. */
  lemma AllProfilesTickIgnoresMarker(s: Snapshot, m1: Option<string>, m2: Option<string>, api: Api, now: int, chains: Chains)
    ensures RunTickAllProfiles(BotState(s, m1), api, now, chains).posted == RunTickAllProfiles(BotState(s, m2), api, now, chains).posted
    ensures RunTickAllProfiles(BotState(s, m1), api, now, chains).error == RunTickAllProfiles(BotState(s, m2), api, now, chains).error
    ensures RunTickAllProfiles(BotState(s, m1), api, now, chains).state.snapshot == RunTickAllProfiles(BotState(s, m2), api, now, chains).state.snapshot
  {
  }

  /** With every profile queried, a second tick against an unchanged API posts nothing. */
  lemma AllProfilesRepeatPostsNothing(st: BotState, api: Api, now1: int, now2: int, chains: Chains)
    requires api("").orders.Some? && |api("").orders.value| > 0
    ensures var t1 := RunTickAllProfiles(st, api, now1, chains);
            RunTickAllProfiles(t1.state, api, now2, chains).posted == []
  {
    var t1 := RunTickAllProfiles(st, api, now1, chains);
    Monerium.SecondCallIsEmpty(st.snapshot, None, api);
  }

  /** A fresh issue order on Ethereum with the given id and primary hash. */
  function FreshOrder(id: string, hash: string, now: int): Order
  {
    Order(id, "issue", "ethereum", "EUR", "100", "Alice", "memo", Some(now), [hash])
  }

  /**
   An API that answers the unfiltered query with `orders` and knows no
   profile named after a transaction hash.
   */
  function OnlyUnfiltered(orders: seq<Order>): Api
  {
    q => if q == "" then Response(Some(orders)) else Response(None)
  }

  /**
   As written, the bot falls silent after its first complete batch: the
   second tick queries `profile_id=0x1`, gets no orders, and does not post
   the new order `b` that the unfiltered query returns.
   */
  lemma SilentAfterFirstMarker(now: int)
    ensures var a := FreshOrder("a", "0x1", now);
            var b := FreshOrder("b", "0x2", now);
            var t1 := RunTick(BotState(NoFile, None), OnlyUnfiltered([a]), now, Etherscan);
            && t1.state.lastTxHash == Some("0x1")
            && t1.posted == [PostFor(a, Etherscan)]
            && RunTick(t1.state, OnlyUnfiltered([b, a]), now, Etherscan).posted == []
  {
    var a := FreshOrder("a", "0x1", now);
    var st := BotState(NoFile, None);
    assert TickQuery(st) == "";
    assert Monerium.GetNewOrders(NoFile, None, OnlyUnfiltered([a])).orders == [a];
    FreshBatchPostsEveryOrder(None, [a], now, Etherscan);
    var t1 := RunTick(st, OnlyUnfiltered([a]), now, Etherscan);
    assert TickQuery(t1.state) == "0x1";
  }

  /** Querying every profile, the same two ticks post `a` and then `b`. */
  lemma AllProfilesKeepsPosting(now: int)
    ensures var a := FreshOrder("a", "0x1", now);
            var b := FreshOrder("b", "0x2", now);
            var t1 := RunTickAllProfiles(BotState(NoFile, None), OnlyUnfiltered([a]), now, Etherscan);
            && t1.posted == [PostFor(a, Etherscan)]
            && RunTickAllProfiles(t1.state, OnlyUnfiltered([b, a]), now, Etherscan).posted == [PostFor(b, Etherscan)]
  {
    var a := FreshOrder("a", "0x1", now);
    var b := FreshOrder("b", "0x2", now);
    assert Monerium.GetNewOrders(NoFile, None, OnlyUnfiltered([a])).orders == [a];
    FreshBatchPostsEveryOrder(None, [a], now, Etherscan);
    var t1 := RunTickAllProfiles(BotState(NoFile, None), OnlyUnfiltered([a]), now, Etherscan);
    assert Monerium.LastOrder(t1.state.snapshot) == Some(a);
    assert Monerium.TakeBefore([b, a], Some(a)) == [b];
    FreshBatchPostsEveryOrder(t1.state.lastTxHash, [b], now, Etherscan);
  }
}

=== FILE: common.dfy ===
/** Option and Result, shared by every module. */
module Common {

  /** A value that may be absent: JavaScript's `undefined`. */
  datatype Option<+T> = None | Some(value: T)

  /** The outcome of an operation that can throw. */
  datatype Result<+T, +E> = Ok(value: T) | Err(error: E)
}

=== FILE: format.dfy ===
/**
 The text of a notification: an amount with its currency symbol, and the
 issue and redeem templates with a link to the transaction on a block
 explorer.
 */
module Format {
  import opened Common
  import opened Orders

  /** The `currencySymbols` table. */
  const CurrencySymbols: map<string, string> :=
    map["USD" := "$", "EUR" := "€", "GBP" := "£", "CAD" := "$", "AUD" := "$"]

  /** Upper-casing of one character, for the ASCII letters. */
  function UpperChar(c: char): char
  {
    if 'a' <= c <= 'z' then (c as int - 32) as char else c
  }

  /** `toUpperCase`, restricted to ASCII letters. */
  function ToUpper(s: string): (r: string)
    ensures |r| == |s|
    ensures forall i | 0 <= i < |s| :: r[i] == UpperChar(s[i])
    ensures forall i | 0 <= i < |r| :: !('a' <= r[i] <= 'z')
  {
    seq(|s|, i requires 0 <= i < |s| => UpperChar(s[i]))
  }

  /** The symbol looked up for a currency code, or `undefined` when the table has no entry. */
  function SymbolFor(currency: string): (r: Option<string>)
    ensures r.Some? <==> ToUpper(currency) in CurrencySymbols
    ensures r.Some? ==> r.value == CurrencySymbols[ToUpper(currency)]
  {
    var key := ToUpper(currency);
    if key in CurrencySymbols then Some(CurrencySymbols[key]) else None
  }

  /** A value interpolated into a template literal: `undefined` prints as its own name. */
  function Render(v: Option<string>): string
  {
    match v
    case Some(s) => s
    case None => "undefined"
  }

  /**
   `formatAmount`: the symbol looked up case-insensitively, followed by the
   amount string unchanged. A code outside the table yields the text
   `undefined` in front of the amount.
   */
  function FormatAmount(amount: string, currency: string): (r: string)
    ensures |r| > |amount| && r[|r| - |amount|..] == amount
    ensures ToUpper(currency) in CurrencySymbols ==> r == CurrencySymbols[ToUpper(currency)] + amount
    ensures ToUpper(currency) !in CurrencySymbols ==> r == "undefined" + amount
  {
    Render(SymbolFor(currency)) + amount
  }

  /**
   Everything in front of the `<` that opens the transaction link: the verb,
   the formatted amount, the counterpart and the memo.
   */
  function Lead(verb: string, preposition: string, o: Order): string
  {
    verb + FormatAmount(o.amount, o.currency) + preposition + o.counterpartName
      + " (" + o.memo + ") [[View Transaction]("
  }

  /** Everything in front of the explorer URL. */
  function Head(verb: string, preposition: string, o: Order): string
  {
    Lead(verb, preposition, o) + "<"
  }

  /** The shared shape of the issue and redeem templates. */
  function Notice(verb: string, preposition: string, o: Order, explorer: string): string
  {
    Head(verb, preposition, o) + explorer + "/tx/" + Render(PrimaryHash(o)) + ">)]"
  }

  /**
   The message posted for one order: "Received … from …" for an issue,
   "Sent … to …" for a redeem, and the empty string for any other kind.
   Both templates end with the explorer link to the primary hash.
   */
  function Message(o: Order, explorer: string): (msg: string)
    ensures o.kind == "issue" ==>
              |msg| > 9 && msg[..9] == "Received " && msg == Head("Received ", " from ", o) + explorer + "/tx/" + Render(PrimaryHash(o)) + ">)]"
    ensures o.kind == "redeem" ==>
              |msg| > 5 && msg[..5] == "Sent " && msg == Head("Sent ", " to ", o) + explorer + "/tx/" + Render(PrimaryHash(o)) + ">)]"
    ensures o.kind != "issue" && o.kind != "redeem" ==> msg == ""
  {
    if o.kind == "issue" then Notice("Received ", " from ", o, explorer)
    else if o.kind == "redeem" then Notice("Sent ", " to ", o, explorer)
    else ""
  }

  /** The issue template spelled out in full. */
  lemma IssueTemplate(o: Order, explorer: string, hash: string)
    requires o.kind == "issue" && |o.txHashes| > 0 && o.txHashes[0] == hash
    ensures Message(o, explorer) ==
      "Received " + FormatAmount(o.amount, o.currency) + " from " + o.counterpartName + " (" + o.memo
        + ") [[View Transaction](<" + explorer + "/tx/" + hash + ">)]"
  {
  }

  /** The redeem template spelled out in full. */
  lemma RedeemTemplate(o: Order, explorer: string, hash: string)
    requires o.kind == "redeem" && |o.txHashes| > 0 && o.txHashes[0] == hash
    ensures Message(o, explorer) ==
      "Sent " + FormatAmount(o.amount, o.currency) + " to " + o.counterpartName + " (" + o.memo
        + ") [[View Transaction](<" + explorer + "/tx/" + hash + ">)]"
  {
  }

  /** The symbol table: a dollar for USD, CAD and AUD, a euro, a pound, in any letter case. */
  lemma SymbolTable(amount: string)
    ensures FormatAmount(amount, "usd") == "$" + amount
    ensures FormatAmount(amount, "Cad") == "$" + amount
    ensures FormatAmount(amount, "AUD") == "$" + amount
    ensures FormatAmount(amount, "eur") == "€" + amount
    ensures FormatAmount(amount, "GBP") == "£" + amount
    ensures FormatAmount(amount, "XYZ") == "undefined" + amount
  {
    assert ToUpper("usd") == "USD";
    assert ToUpper("Cad") == "CAD";
    assert ToUpper("AUD") == "AUD";
    assert ToUpper("eur") == "EUR";
    assert ToUpper("GBP") == "GBP";
    assert ToUpper("XYZ") == "XYZ";
  }

  /** Two currency codes that differ only in letter case format the same way. */
  lemma FormatAmountIgnoresCase(amount: string, c1: string, c2: string)
    requires |c1| == |c2|
    requires forall i | 0 <= i < |c1| :: UpperChar(c1[i]) == UpperChar(c2[i])
    ensures FormatAmount(amount, c1) == FormatAmount(amount, c2)
  {
    assert ToUpper(c1) == ToUpper(c2);
  }
}

=== FILE: linkpattern.dfy ===
/**
 The pattern `/<https?:\/\/.*\/tx\/(0x[a-zA-Z0-9]+)>/` used at startup to
 find a transaction hash in a chat message, written out as the backtracking
 search a JavaScript regular expression performs: the leftmost start wins,
 and from there the greedy `.*` keeps the LAST `/tx/0x…>` that can still be
 reached without crossing a line terminator.
 */
module LinkPattern {
  import opened Common

  /** The characters `.` does not match. */
  predicate IsLineTerminator(c: char)
  {
    c == '\n' || c == '\r' || c == '\U{2028}' || c == '\U{2029}'
  }

  /** `[a-zA-Z0-9]` */
  predicate IsAlnum(c: char)
  {
    'a' <= c <= 'z' || 'A' <= c <= 'Z' || '0' <= c <= '9'
  }

  /** Length of the maximal run of `[a-zA-Z0-9]` starting at `p`. */
  function AlnumRun(c: string, p: nat): (n: nat)
    requires p <= |c|
    ensures p + n <= |c|
    ensures forall k | p <= k < p + n :: IsAlnum(c[k])
    ensures p + n < |c| ==> !IsAlnum(c[p + n])
    decreases |c| - p
  {
    if p < |c| && IsAlnum(c[p]) then 1 + AlnumRun(c, p + 1) else 0
  }

  /**
   `\/tx\/(0x[a-zA-Z0-9]+)>` matched exactly at `p`, giving the captured
   hash. The run of letters and digits cannot stop early, since a shorter
   run is followed by a letter or digit instead of `>`.
   */
  function TailAt(c: string, p: nat): Option<string>
    requires p <= |c|
  {
    if p + 6 <= |c| && c[p..p + 6] == "/tx/0x" then
      var n := AlnumRun(c, p + 6);
      if n >= 1 && p + 6 + n < |c| && c[p + 6 + n] == '>' then Some(c[p + 4..p + 6 + n]) else None
    else None
  }

  /**
   `.*` followed by the tail, from `p`: the greedy star first consumes one
   more character (if it is not a line terminator) and only falls back to
   the tail at `p` when nothing further along matches.
   */
  function GreedyTail(c: string, p: nat): Option<string>
    requires p <= |c|
    decreases |c| - p
  {
    var further := if p < |c| && !IsLineTerminator(c[p]) then GreedyTail(c, p + 1) else None;
    if further.Some? then further else TailAt(c, p)
  }

  /** The whole pattern anchored at `i`: `<https://` or `<http://`, then `.*` and the tail. */
  function MatchAt(c: string, i: nat): Option<string>
    requires i <= |c|
  {
    if i + 9 <= |c| && c[i..i + 9] == "<https://" then GreedyTail(c, i + 9)
    else if i + 8 <= |c| && c[i..i + 8] == "<http://" then GreedyTail(c, i + 8)
    else None
  }

  /** The leftmost match at or after `i`. */
  function Search(c: string, i: nat): Option<string>
    requires i <= |c|
    decreases |c| - i
  {
    if i == |c| then None
    else
      var m := MatchAt(c, i);
      if m.Some? then m else Search(c, i + 1)
  }

  /** A transaction hash as the pattern captures it: `0x` and at least one letter or digit. */
  predicate IsTxHash(h: string)
  {
    |h| >= 3 && h[..2] == "0x" && forall k | 2 <= k < |h| :: IsAlnum(h[k])
  }

  /** `content.match(pattern)?.[1]`: the captured hash, if the message holds a link. */
  function ExtractTxHash(content: string): (h: Option<string>)
    ensures h.Some? ==> IsTxHash(h.value)
  {
    SearchCapturesHash(content, 0);
    Search(content, 0)
  }

  /** Every capture of the tail is a transaction hash. */
  lemma TailCapturesHash(c: string, p: nat)
    requires p <= |c|
    ensures TailAt(c, p).Some? ==> IsTxHash(TailAt(c, p).value)
  {
    if TailAt(c, p).Some? {
      var n := AlnumRun(c, p + 6);
      var h := c[p + 4..p + 6 + n];
      assert h[..2] == c[p + 4..p + 6];
      assert forall k | 2 <= k < |h| :: h[k] == c[p + 4 + k];
    }
  }

  lemma {:induction false} GreedyTailCapturesHash(c: string, p: nat)
    requires p <= |c|
    ensures GreedyTail(c, p).Some? ==> IsTxHash(GreedyTail(c, p).value)
    decreases |c| - p
  {
    if p < |c| && !IsLineTerminator(c[p]) {
      GreedyTailCapturesHash(c, p + 1);
    }
    TailCapturesHash(c, p);
  }

  lemma {:induction false} SearchCapturesHash(c: string, i: nat)
    requires i <= |c|
    ensures Search(c, i).Some? ==> IsTxHash(Search(c, i).value)
    decreases |c| - i
  {
    if i < |c| {
      if i + 9 <= |c| && c[i..i + 9] == "<https://" {
        GreedyTailCapturesHash(c, i + 9);
      } else if i + 8 <= |c| && c[i..i + 8] == "<http://" {
        GreedyTailCapturesHash(c, i + 8);
      }
      SearchCapturesHash(c, i + 1);
    }
  }

  /** Before position `j` there is no `<`, so no match can start there. */
  lemma {:induction false} SearchSkipsToAngle(c: string, i: nat, j: nat)
    requires i <= j <= |c|
    requires forall k | i <= k < j :: c[k] != '<'
    ensures Search(c, i) == Search(c, j)
    decreases j - i
  {
    if i < j {
      assert i + 9 <= |c| ==> c[i..i + 9][0] == c[i];
      assert i + 8 <= |c| ==> c[i..i + 8][0] == c[i];
      SearchSkipsToAngle(c, i + 1, j);
    }
  }

  /** With no tail at or after `p`, the greedy star finds nothing. */
  lemma {:induction false} GreedyTailNone(c: string, p: nat)
    requires p <= |c|
    requires forall q | p <= q <= |c| :: TailAt(c, q).None?
    ensures GreedyTail(c, p).None?
    decreases |c| - p
  {
    if p < |c| {
      GreedyTailNone(c, p + 1);
    }
  }

  /** Across characters other than line terminators the greedy star reaches a later tail. */
  lemma {:induction false} GreedyTailReaches(c: string, p: nat, last: nat)
    requires p <= last <= |c|
    requires forall q | p <= q < last :: !IsLineTerminator(c[q])
    requires GreedyTail(c, last).Some?
    ensures GreedyTail(c, p) == GreedyTail(c, last)
    decreases last - p
  {
    if p < last {
      GreedyTailReaches(c, p + 1, last);
    }
  }

  /** A block-explorer URL the link can carry: an http(s) scheme and a single line. */
  predicate IsExplorerUrl(url: string)
  {
    && ((|url| >= 8 && url[..8] == "https://") || (|url| >= 7 && url[..7] == "http://"))
    && forall k | 0 <= k < |url| :: !IsLineTerminator(url[k])
  }

  /** The end of a link, `/tx/hash>)]`, seen from its `/`: the greedy star yields the hash. */
  lemma LinkEnd(c: string, p: nat, hash: string)
    requires p <= |c| && c[p..] == "/tx/" + hash + ">)]"
    requires IsTxHash(hash)
    ensures GreedyTail(c, p) == Some(hash)
  {
    var q := p + 4 + |hash|;
    assert |c| == q + 3;
    assert forall k | 0 <= k < |hash| :: c[p + 4 + k] == hash[k] by {
      forall k | 0 <= k < |hash| ensures c[p + 4 + k] == hash[k] {
        assert c[p + 4 + k] == c[p..][4 + k];
      }
    }
    assert c[p..p + 4] == "/tx/" by {
      assert c[p..p + 4] == c[p..][..4];
    }
    assert c[q] == c[p..][4 + |hash|] == '>';
    assert c[q + 1] == c[p..][5 + |hash|];
    assert c[q + 2] == c[p..][6 + |hash|];
    assert c[p..p + 6] == "/tx/0x" by {
      assert c[p + 4] == hash[0] == hash[..2][0];
      assert c[p + 5] == hash[1] == hash[..2][1];
    }
    var n := AlnumRun(c, p + 6);
    assert forall k | p + 6 <= k < q :: IsAlnum(c[k]) by {
      forall k | p + 6 <= k < q ensures IsAlnum(c[k]) {
        assert c[k] == hash[k - p - 4];
      }
    }
    assert !IsAlnum(c[q]);
    assert n == |hash| - 2;
    assert c[p + 4..q] == hash;
    assert TailAt(c, p) == Some(hash);
    forall r | p < r <= |c|
      ensures TailAt(c, r).None?
    {
      if r + 6 <= |c| {
        assert c[r..r + 6][0] == c[r] && c[r..r + 6][1] == c[r + 1];
        if r < p + 3 {
          assert c[r] == c[p..p + 4][r - p];
        } else if r == p + 3 {
          assert c[r + 1] == hash[0];
        } else {
          assert c[r] == hash[r - p - 4];
        }
      }
    }
    GreedyTailNone(c, p + 1);
  }

  /** A match anchored at the `<` in front of an explorer URL that runs up to the link's end. */
  lemma MatchAtLink(c: string, i: nat, url: string, hash: string)
    requires i + 1 + |url| <= |c|
    requires c[i] == '<' && c[i + 1..i + 1 + |url|] == url
    requires c[i + 1 + |url|..] == "/tx/" + hash + ">)]"
    requires IsExplorerUrl(url)
    requires IsTxHash(hash)
    ensures MatchAt(c, i) == Some(hash)
  {
    var p := i + 1 + |url|;
    LinkEnd(c, p, hash);
    assert forall q | i + 1 <= q < p :: c[q] == url[q - i - 1];
    if |url| >= 8 && url[..8] == "https://" {
      assert c[i..i + 9] == "<https://";
      GreedyTailReaches(c, i + 9, p);
    } else {
      assert url[..7] == "http://";
      assert c[i + 5] == url[4] == ':';
      assert c[i..i + 9] != "<https://" by {
        assert i + 9 <= |c| ==> c[i..i + 9][5] == c[i + 5];
      }
      assert c[i..i + 8] == "<http://" by {
        assert c[i + 1..i + 8] == url[..7];
        assert c[i..i + 8] == [c[i]] + c[i + 1..i + 8];
      }
      GreedyTailReaches(c, i + 8, p);
    }
  }

  /**
   A link written as `<url/tx/hash>)]`, preceded by text free of `<`, gives
   back exactly its hash: the text in front cannot start a match, and the
   tail after the hash holds no second `/tx/`.
   */
  lemma ExtractFromLink(pre: string, url: string, hash: string)
    requires |pre| > 0 && pre[|pre| - 1] == '<'
    requires forall k | 0 <= k < |pre| - 1 :: pre[k] != '<'
    requires IsExplorerUrl(url)
    requires IsTxHash(hash)
    ensures ExtractTxHash(pre + url + "/tx/" + hash + ">)]") == Some(hash)
  {
    var tail := "/tx/" + hash + ">)]";
    var m := (pre + url) + tail;
    assert m == pre + url + "/tx/" + hash + ">)]";
    var i := |pre| - 1;
    assert m[i] == pre[i];
    assert m[i + 1..i + 1 + |url|] == url;
    assert m[i + 1 + |url|..] == tail;
    MatchAtLink(m, i, url, hash);
    assert forall k | 0 <= k < i :: m[k] == pre[k];
    SearchSkipsToAngle(m, 0, i);
  }
}

=== FILE: monerium.dfy ===
/**
 The order source: the snapshot of the last response, the marker read from
 it, and the cut of a freshly fetched list at that marker.
 */
module Monerium {
  import opened Common
  import opened Orders

  /** Whether `o` is the marker order, compared by `id` as the loop does. */
  predicate IsMarker(marker: Option<Order>, o: Order)
  {
    marker.Some? && o.id == marker.value.id
  }

  /**
   The last order seen: the first element of the snapshot's `orders`, or
   nothing when the file is missing or unreadable, or its `orders` field is
   missing or empty.
   */
  function LastOrder(s: Snapshot): (r: Option<Order>)
    ensures r.Some? <==> s.Saved? && s.data.orders.Some? && |s.data.orders.value| > 0
    ensures r.Some? ==> r.value == s.data.orders.value[0]
  {
    match s
    case Saved(Response(Some(orders))) => if |orders| == 0 then None else Some(orders[0])
    case _ => None
  }

  /** What one fetch hands back: the `orders` field, and the snapshot it leaves behind. */
  datatype Fetched = Fetched(orders: Option<seq<Order>>, snapshot: Snapshot)

  /** The `profile_id` query value, `profileId || ""`: an absent or empty id queries with `""`. */
  function ProfileIdParam(profileId: Option<string>): (q: string)
    ensures profileId.None? ==> q == ""
    ensures profileId.Some? ==> q == profileId.value
  {
    match profileId
    case None => ""
    case Some(id) => id
  }

  /**
   A fetch of the processed orders for a profile id. Whatever was stored
   before, the response becomes the snapshot, so the next marker is the
   response's first order.
   */
  function GetOrders(profileId: Option<string>, api: Api): (f: Fetched)
    ensures f.orders == api(ProfileIdParam(profileId)).orders
    ensures var answer := api(ProfileIdParam(profileId)).orders;
            LastOrder(f.snapshot).Some? <==> answer.Some? && |answer.value| > 0
    ensures var answer := api(ProfileIdParam(profileId)).orders;
            LastOrder(f.snapshot).Some? ==> LastOrder(f.snapshot).value == answer.value[0]
  {
    var response := api(ProfileIdParam(profileId));
    Fetched(response.orders, Saved(response))
  }

  /**
   The orders in front of the first one whose `id` is the marker's: the
   longest prefix of `orders` free of the marker.
   */
  function TakeBefore(orders: seq<Order>, marker: Option<Order>): (r: seq<Order>)
    ensures r <= orders
    ensures forall i | 0 <= i < |r| :: !IsMarker(marker, r[i])
    ensures |r| < |orders| ==> IsMarker(marker, orders[|r|])
    decreases |orders|
  {
    if |orders| == 0 then []
    else if IsMarker(marker, orders[0]) then []
    else [orders[0]] + TakeBefore(orders[1..], marker)
  }

  /**
   The `for … of` loop with its `break`, over an already fetched list. It
   computes the longest marker-free prefix.
   */
  method CollectNewOrders(orders: seq<Order>, marker: Option<Order>) returns (newOrders: seq<Order>)
    ensures newOrders <= orders
    ensures forall i | 0 <= i < |newOrders| :: !IsMarker(marker, newOrders[i])
    ensures |newOrders| < |orders| ==> IsMarker(marker, orders[|newOrders|])
    ensures newOrders == TakeBefore(orders, marker)
  {
    newOrders := [];
    var i := 0;
    while i < |orders|
      invariant 0 <= i <= |orders|
      invariant newOrders == orders[..i]
      invariant forall k | 0 <= k < i :: !IsMarker(marker, orders[k])
    {
      if IsMarker(marker, orders[i]) {
        break;
      }
      newOrders := newOrders + [orders[i]];
      i := i + 1;
    }
    LongestFreePrefixIsUnique(orders, marker, newOrders);
  }

  /** A marker-free prefix that stops only at the marker or the end is `TakeBefore`'s. */
  lemma {:induction false} LongestFreePrefixIsUnique(orders: seq<Order>, marker: Option<Order>, p: seq<Order>)
    requires p <= orders
    requires forall i | 0 <= i < |p| :: !IsMarker(marker, p[i])
    requires |p| < |orders| ==> IsMarker(marker, orders[|p|])
    ensures p == TakeBefore(orders, marker)
  {
    var r := TakeBefore(orders, marker);
    assert |r| == |p|;
  }

  /** The result of `getNewOrders`: the new orders and the snapshot left behind. */
  datatype NewOrders = NewOrders(orders: seq<Order>, snapshot: Snapshot)

  /**
   `getNewOrders`: read the marker from the stored snapshot, then fetch for
   the profile id (which overwrites the snapshot), then cut the fetched list
   at the marker. A response without `orders` gives no new orders.
   */
  function GetNewOrders(s: Snapshot, profileId: Option<string>, api: Api): (r: NewOrders)
    ensures r.snapshot == Saved(api(ProfileIdParam(profileId)))
    ensures var answer := api(ProfileIdParam(profileId)).orders;
            answer.None? ==> r.orders == []
    ensures var answer := api(ProfileIdParam(profileId)).orders;
            answer.Some? ==> r.orders <= answer.value
    ensures forall i | 0 <= i < |r.orders| :: !IsMarker(LastOrder(s), r.orders[i])
    ensures var answer := api(ProfileIdParam(profileId)).orders;
            answer.Some? && |r.orders| < |answer.value| ==> IsMarker(LastOrder(s), answer.value[|r.orders|])
  {
    var lastOrder := LastOrder(s);
    var fetched := GetOrders(profileId, api);
    match fetched.orders
    case None => NewOrders([], fetched.snapshot)
    case Some(orders) => NewOrders(TakeBefore(orders, lastOrder), fetched.snapshot)
  }

  /** Without a stored marker nothing is cut: the whole fetched list is new. */
  lemma {:induction false} NoMarkerKeepsAll(orders: seq<Order>)
    ensures TakeBefore(orders, None) == orders
    decreases |orders|
  {
    if |orders| > 0 {
      NoMarkerKeepsAll(orders[1..]);
      assert orders == [orders[0]] + orders[1..];
    }
  }

  /** A missing, unreadable or empty snapshot passes the fetched list through unchanged. */
  lemma NoSnapshotMarkerKeepsAll(s: Snapshot, profileId: Option<string>, api: Api)
    requires !(s.Saved? && s.data.orders.Some? && |s.data.orders.value| > 0)
    requires api(ProfileIdParam(profileId)).orders.Some?
    ensures GetNewOrders(s, profileId, api).orders == api(ProfileIdParam(profileId)).orders.value
  {
    NoMarkerKeepsAll(api(ProfileIdParam(profileId)).orders.value);
  }

  /** The new orders keep the fetched order and never include an order with the marker's `id`. */
  lemma NewOrdersAreMarkerFree(s: Snapshot, profileId: Option<string>, api: Api, marker: Order)
    requires LastOrder(s) == Some(marker)
    requires api(ProfileIdParam(profileId)).orders.Some?
    ensures var fetched := api(ProfileIdParam(profileId)).orders.value;
            var r := GetNewOrders(s, profileId, api).orders;
            r <= fetched && |r| <= |fetched| && forall o | o in r :: o.id != marker.id
  {
  }

  /**
   Two calls in a row: the second call cuts at the first order of the FIRST
   call's response, whatever was stored before the first call.
   */
  lemma ConsecutiveCallsCutAtPreviousResponse(s: Snapshot, p1: Option<string>, api1: Api, p2: Option<string>, api2: Api)
    requires api2(ProfileIdParam(p2)).orders.Some?
    ensures var first := api1(ProfileIdParam(p1)).orders;
            GetNewOrders(GetNewOrders(s, p1, api1).snapshot, p2, api2).orders ==
            TakeBefore(api2(ProfileIdParam(p2)).orders.value,
                       if first.Some? && |first.value| > 0 then Some(first.value[0]) else None)
  {
  }

  /** Fetching the same non-empty response twice yields nothing new the second time. */
  lemma {:induction false} SecondCallIsEmpty(s: Snapshot, profileId: Option<string>, api: Api)
    requires api(ProfileIdParam(profileId)).orders.Some? && |api(ProfileIdParam(profileId)).orders.value| > 0
    ensures GetNewOrders(GetNewOrders(s, profileId, api).snapshot, profileId, api).orders == []
  {
    var s1 := GetNewOrders(s, profileId, api).snapshot;
    assert LastOrder(s1) == Some(api(ProfileIdParam(profileId)).orders.value[0]);
  }
}

=== FILE: orders.dfy ===
/**
 The order records of the payment API, as the bot reads them, and the state
 kept between two fetches: the snapshot file written after every fetch.
 */
module Orders {
  import opened Common

  /**
   One order. Only the fields the bot reads are kept; `counterpartName` is
   `counterpart.details.name`, and `processedAt` and `txHashes` live under
   `meta` in the API. `processedAt` is in milliseconds since the epoch, or
   `None` when the timestamp string does not parse as a date (JavaScript's
   `NaN`).
   */
  datatype Order = Order(
    id: string,
    kind: string,
    chain: string,
    currency: string,
    amount: string,
    counterpartName: string,
    memo: string,
    processedAt: Option<int>,
    txHashes: seq<string>)

  /** The body returned by the orders endpoint; its `orders` field may be missing. */
  datatype Response = Response(orders: Option<seq<Order>>)

  /**
   The orders endpoint, as the body it answers for each value of the
   `profile_id` query parameter.
   */
  type Api = string -> Response

  /**
   The content of the snapshot file `monerium-orders.json`: absent, not
   parseable JSON (or not an object), or the last response written back.
   */
  datatype Snapshot = NoFile | Unreadable | Saved(data: Response)

  /** `meta.txHashes[0]`, which is `undefined` when the list is empty. */
  function PrimaryHash(o: Order): (h: Option<string>)
    ensures h.Some? <==> |o.txHashes| > 0
    ensures h.Some? ==> h.value == o.txHashes[0]
  {
    if |o.txHashes| == 0 then None else Some(o.txHashes[0])
  }
}
